=== FILE: README.md ===
# RetroWaveFX sound registry and audio readiness, in Dafny

RetroWaveFX is a small in-browser sound-effect library. The object `RetroWaveFX.Audio` holds a registry of
named sound presets (`soundEffects`) together with an audio context (`audioCtx`) and a flag (`isInitialized`).
A preset can only be heard once the context exists and the browser has let it leave the `suspended` state,
which usually takes a user gesture. This project models that registry and the readiness state machine in
front of it:

- `initAudio` creates the context lazily and at most once, and asks a suspended context to resume;
- `_ensureContextReady` initialises on demand, waits for a resume, and answers true or false;
- `registerSound` stores or overwrites a record, filling falsy metadata fields with defaults;
- `getAllSoundEffects` lists the records without their generator procedures;
- `playSoundByName` looks a name up, waits for readiness, and calls the generator, catching anything it throws.

The model is functional. The three fields become an immutable `Audio.State`, together with the
enumeration order of the registry's properties and an append-only log of console diagnostics.
Each method becomes a pure transition function. Everything the browser decides is passed in as a
`Host.Env` value: whether the context constructor succeeds (and in which state the new context starts),
whether a resume request is fulfilled, and whether the stored generator throws. A generator is an opaque
token; the model records only that it was invoked. `Session` strings calls together into runs and proves
facts that span several calls.

Files: `wrappers.dfy` (Option), `host.dfy` (the audio context and the host's outcomes), `audio.dfy`
(state and operations), `session.dfy` (runs of operations).

## Model

| member | source | states |
|---|---|---|
| Host.Resume | lib/RetroWaveFX.js:44-53 | a resume request keeps the context's identity and leaves it non-suspended exactly when the host fulfils it |
| Audio.InitAudio | lib/RetroWaveFX.js:9-33 | an existing context is never replaced and the flag is not touched; a context that is not suspended makes the call a no-op; a suspended one is only asked to resume (running if fulfilled, unchanged if rejected), and a rejection is logged but not propagated; with no context and the flag clear, a context appears and the flag is set exactly when construction succeeds, a construction is logged (with a note when the context starts suspended), and a failed construction is logged as unsupported and leaves no context and the flag false; the flag and the context stay in agreement; the registry is untouched |
| Audio.EnsureContextReady | lib/RetroWaveFX.js:36-55 | the answer is true exactly when afterwards a context exists and is not suspended; false only when there is still no context or the resume was rejected, and a rejected resume of a suspended context does answer false and leaves it suspended; with no context and the flag clear, a constructing host yields a context, which is ready exactly when it starts unsuspended or its resume is fulfilled; the awaited resume logs success or rejection; with no context the not-initialised warning comes before initialisation; a context that is not suspended is returned unchanged without touching the host; an existing context keeps its identity; the registry is untouched |
| Audio.InitialWf | lib/RetroWaveFX.js:3-6 | the state at script load (no context, flag false, empty registry) satisfies the invariant every run preserves |
| Audio.RegisterSound | lib/RetroWaveFX.js:58-71 | after the call the record under the name has that name, the given description or "No description" when it is falsy, the given emoji or the default glyph when it is falsy, and the given generator; every other record is unchanged and the key set grows only by the name; an existing name keeps its place in enumeration order and a new one is appended; initialisation is attempted only when there is neither a context nor the flag, otherwise the device is left untouched; the registration is logged last |
| Audio.Listing | lib/RetroWaveFX.js:74-81 | the listing has one entry per name in enumeration order, each being the generator-free view of the record under that name |
| Audio.ListingFacts | lib/RetroWaveFX.js:74-81 | for a well-formed registry the listing has exactly as many entries as registered names, no name twice, every registered name and only those, each entry copied from the record stored under its name |
| Audio.GetAllSoundEffects | lib/RetroWaveFX.js:74-81 | the loop builds the listing: one name/description/emoji triple per distinct registered key, in enumeration order, with the generator left out |
| Audio.PlaySoundByName | lib/RetroWaveFX.js:84-103 | an unregistered name only logs "not found": no readiness attempt, registry and device unchanged, no generator runs; for a registered name the stored generator is invoked exactly once when readiness succeeds and never otherwise, a failed readiness logs a warning and a throwing generator logs a playback error; registry and device end as readiness left them, whether or not the generator throws; a generator only runs when a context exists and is not suspended (a closed context counts, as lib/RetroWaveFX.js:12 and :44 test only for `'suspended'`) |
| Audio.PlaySoundByNameAsWritten | lib/RetroWaveFX.js:84-102 | with the lookup as written, an unregistered name inherited from Object.prototype is not reported missing: it goes through readiness, runs no generator, and logs either the readiness warning or, once ready, the caught TypeError of the missing `play` as a playback error; the registry is never touched; on every other name it agrees with the corrected lookup |
| Audio.InheritedNameReachesDevice | lib/RetroWaveFX.js:85-89 | from a state without a context, the as-written play of an inherited name such as "toString" constructs a context, while the corrected play leaves the device alone |
| Session.InitCreations | lib/RetroWaveFX.js:20-24 | `initAudio` logs a construction exactly when it makes a context appear |
| Session.RunPreservesWf | lib/RetroWaveFX.js:17-32 | over any run of calls, whose plays may use either the registered-only lookup or the lookup as written, the flag holds exactly when a context exists, and every record carries the name it is stored under, each name listed once |
| Session.DeviceNeverReplaced | lib/RetroWaveFX.js:11-16 | once a context exists no run of calls (plays with either lookup) replaces or removes it, and registered names never disappear |
| Session.AtMostOneCreation | lib/RetroWaveFX.js:20-24 | over any run (plays with either lookup) the log gains one construction exactly when the run made a context appear, so never more than one |
| Session.InitRepeatedly | lib/RetroWaveFX.js:9-33 | calling `initAudio` N times constructs at most one context, none if one already existed, leaves the registry as it was and runs no generator |
| Session.GeneratorFailureContained | lib/RetroWaveFX.js:97-102 | a throwing generator leaves registry and device exactly as a successful one would, and a later play of another registered sound runs that sound's generator without a new diagnostic |
| Session.ResumeRetriedOnNextPlay | lib/RetroWaveFX.js:44-53 | a rejected resume fails only the play that met it; the next play retries readiness and runs the generator once the resume is fulfilled |
| Session.RegisterCount | lib/RetroWaveFX.js:64-69 | re-registering an existing name leaves the number of listed sounds unchanged; a new name adds exactly one |
| Session.CorrectScenario | js/main.js:34-43 | registering "correct" at load, then a click that calls `initAudio` and plays it: the listing shows the record, its generator runs once, and no error is logged |
| Session.PlayBeforeInteraction | lib/RetroWaveFX.js:91-95 | playing before any context can be constructed logs a readiness warning last and runs no generator |

## Left out

- The preset bodies registered by `_registerDefaultSounds` (lib/RetroWaveFX.js:106-984) build Web Audio graphs from floating-point frequencies, ramps and random noise; each generator is an opaque token whose call may throw.
- The automatic registration at load and the `{ once: true }` interaction listeners (lib/RetroWaveFX.js:987-1003) are browser event wiring; a run of `Session.Op` values stands for whatever order the page issues calls in.
- All of js/main.js (button generation, tooltips, syntax highlighting, clipboard) is presentation glue; only its click sequence appears, in `Session.CorrectScenario`.
- Promise semantics: a resume request is applied before the call returns. The fire-and-forget resume in `initAudio` and the awaited one in `_ensureContextReady` both take their outcome from `Env.resumeOk`. Interleavings of overlapping `playSoundByName` calls are not modelled.
- Console messages are kept as tagged events; their texts and the error objects are not.
- GetAllSoundEffects: lists names in the order their properties were first created; JavaScript enumerates array-index-like names (such as "7") first, in numeric order, and the model does not.
- RegisterSound: metadata is a record of optional strings; a missing `metadata` object (a TypeError at lib/RetroWaveFX.js:66) and non-string truthy field values are not modelled, and registering the name "__proto__", which changes the registry object's prototype, is treated like any other name.
- The record built at lib/RetroWaveFX.js:64-69 has no category field, so the model has none.
- Emoji strings are kept as the characters written in lib/RetroWaveFX.js: the default glyph at line 67 is the UTF-8 bytes of U+1F50A (speaker) read as Windows-1252, and the emoji of "correct" at line 110, used in `Session.CorrectMeta`, is likewise the three characters standing for U+2705.

## Findings

| source | as written | input that shows it | evidently intended | confidence | as-written member | corrected member |
|---|---|---|---|---|---|---|
| lib/RetroWaveFX.js:85-89 | `this.soundEffects[name]` reads a plain object, so names inherited from Object.prototype are truthy | `playSoundByName("toString")` with no sound of that name: instead of "not found" it goes through readiness (constructing or resuming the context), then `sound.play` is undefined and the TypeError is caught and logged as a playback error | only registered names are found; any other name is reported missing before readiness is attempted | high, from JavaScript's property lookup rules; not executed | Audio.PlaySoundByNameAsWritten, Audio.InheritedNameReachesDevice | Audio.PlaySoundByName |

=== FILE: audio.dfy ===
/**
 The sound registry and the audio-readiness state machine of `RetroWaveFX.Audio`.

 The JavaScript object holds three fields: `audioCtx` (the audio context, or
 `null`), `isInitialized` (a flag), and `soundEffects` (a plain object used as
 a name-to-record table). Here they become an immutable `State`, and every
 method of the object becomes a pure transition function that takes the
 host's outcomes as an explicit `Env`. Diagnostics written to the console are
 kept as an append-only `log` of events.
 */
module Audio {
  import opened Wrappers
  import opened Host

  type Name = string

  /** A sound's generator procedure, as an opaque token: the model only records
      that it is invoked, never what audio graph it builds. */
  datatype Generator = Generator(id: nat)

  /** The `metadata` argument of `registerSound`. An absent field is `None`. */
  datatype Metadata = Metadata(description: Option<string>, emoji: Option<string>)

  /** A registry record: what `registerSound` stores under a name. */
  datatype Entry = Entry(name: Name, description: string, emoji: string, play: Generator)

  /** The generator-free view of a record that `getAllSoundEffects` hands out. */
  datatype Info = Info(name: Name, description: string, emoji: string)

  /** One console diagnostic, in the order the component writes them. */
  datatype Event =
    | ResumeRequestRejected           // initAudio: a fire-and-forget resume was rejected
    | ContextCreated(handle: nat)     // initAudio: construction succeeded
    | CreatedSuspended                // initAudio: the new context starts suspended
    | UnsupportedPlatform             // initAudio: the constructor threw
    | NotInitialized                  // _ensureContextReady: no context yet
    | Resumed                         // _ensureContextReady: the awaited resume was fulfilled
    | ResumeFailed                    // _ensureContextReady: the awaited resume was rejected
    | SoundRegistered(emoji: Option<string>, name: Name)
    | SoundNotFound(name: Name)       // playSoundByName: lookup failed
    | NotReady(name: Name)            // playSoundByName: readiness failed
    | PlayFailed(name: Name)          // playSoundByName: the call of `play` threw

  /** Events written with `console.error`. */
  predicate IsError(e: Event) {
    e.ResumeRequestRejected? || e.UnsupportedPlatform? || e.ResumeFailed? || e.SoundNotFound? || e.PlayFailed?
  }

  /** The component's state. `order` lists the registered names in the order
      their properties were first created, which is the order in which
      `Object.values` enumerates them; assigning to an existing property
      keeps its place. */
  datatype State = State(
    soundEffects: map<Name, Entry>,
    order: seq<Name>,
    audioCtx: Option<Device>,
    isInitialized: bool,
    log: seq<Event>)

  /** The state when the script has just been loaded. */
  const Initial: State := State(map[], [], None, false, [])

  const NoDescription: string := "No description"

  /** The default glyph exactly as written at lib/RetroWaveFX.js:67: the four
      characters that the UTF-8 encoding of U+1F50A (speaker) turns into when
      read as Windows-1252. */
  const DefaultEmoji: string := "\U{00F0}\U{0178}\U{201D}\U{0160}"

  /** JavaScript truthiness of an optional string: absent and empty are falsy. */
  predicate Falsy(v: Option<string>) {
    v.None? || v.value == ""
  }

  /** The `v || default` idiom. */
  function OrDefault(v: Option<string>, default: string): string {
    if Falsy(v) then default else v.value
  }

  /** The flag and the device agree: `isInitialized` holds exactly when a
      context exists. */
  predicate Agree(s: State) {
    s.isInitialized <==> s.audioCtx.Some?
  }

  ghost predicate Distinct(xs: seq<Name>) {
    forall i, j :: 0 <= i < j < |xs| ==> xs[i] != xs[j]
  }

  /** The registry is well formed: `order` lists every key exactly once and
      every record carries the name it is stored under. */
  ghost predicate RegistryWf(s: State) {
    && Distinct(s.order)
    && (forall k :: k in s.soundEffects <==> k in s.order)
    && (forall k :: k in s.soundEffects ==> s.soundEffects[k].name == k)
  }

  ghost predicate Wf(s: State) {
    Agree(s) && RegistryWf(s)
  }

  /** The state at script load satisfies the invariant every run preserves. */
  lemma InitialWf()
    ensures Wf(Initial)
  {
  }

  predicate SameRegistry(a: State, b: State) {
    a.soundEffects == b.soundEffects && a.order == b.order
  }

  predicate SameDevice(a: State, b: State) {
    a.audioCtx == b.audioCtx && a.isInitialized == b.isInitialized
  }

  /** True when a context exists and is not suspended. lib/RetroWaveFX.js:12
      and :44 test only for `'suspended'`, so a closed context counts as ready too. */
  predicate NotSuspended(s: State) {
    s.audioCtx.Some? && s.audioCtx.value.state != Suspended
  }

  // ---------------------------------------------------------------------
  // initAudio
  // ---------------------------------------------------------------------

  /** `initAudio`: with a context present, at most request a resume (whose
      rejection is only logged); otherwise, unless the flag is already set,
      construct a context, setting the flag only if construction succeeds. */
  function InitAudio(s: State, env: Env): (r: State)
    ensures SameRegistry(s, r)
    ensures s.log <= r.log
    // an existing context is never replaced, and the flag is left alone
    ensures s.audioCtx.Some? ==>
              && r.audioCtx.Some?
              && r.audioCtx.value.handle == s.audioCtx.value.handle
              && r.isInitialized == s.isInitialized
    ensures s.audioCtx.Some? && s.audioCtx.value.state != Suspended ==> r == s
    // the only effect on an existing suspended context is the resume request
    ensures s.audioCtx.Some? && s.audioCtx.value.state == Suspended ==>
              (NotSuspended(r) <==> env.resumeOk) && (!env.resumeOk ==> r.audioCtx == s.audioCtx)
    // a suspended context is only asked to resume, and a rejection is logged
    ensures s.audioCtx.Some? && s.audioCtx.value.state == Suspended ==>
              && r.audioCtx == Some(Resume(s.audioCtx.value, env.resumeOk))
              && r.log == s.log + (if env.resumeOk then [] else [ResumeRequestRejected])
    ensures s.audioCtx.None? && s.isInitialized ==> r == s
    // construction is logged, with a note when the new context starts suspended;
    // a failed construction is logged as unsupported
    ensures s.audioCtx.None? && !s.isInitialized && env.creation.Constructed? ==>
              r.log == s.log + [ContextCreated(env.creation.device.handle)]
                             + (if env.creation.device.state == Suspended then [CreatedSuspended] else [])
    ensures s.audioCtx.None? && !s.isInitialized && env.creation.Unsupported? ==>
              r.log == s.log + [UnsupportedPlatform]
    // construction: the context appears exactly when the host constructs one
    ensures s.audioCtx.None? && !s.isInitialized ==>
              && (r.audioCtx.Some? <==> env.creation.Constructed?)
              && (r.isInitialized <==> env.creation.Constructed?)
              && (env.creation.Constructed? ==> r.audioCtx == Some(env.creation.device))
    ensures Agree(s) ==> Agree(r)
  {
    match s.audioCtx
    case Some(d) =>
      if d.state != Suspended then s
      else
        s.(audioCtx := Some(Resume(d, env.resumeOk)),
           log := if env.resumeOk then s.log else s.log + [ResumeRequestRejected])
    case None =>
      if s.isInitialized then s
      else
        match env.creation
        case Constructed(d) =>
          s.(audioCtx := Some(d), isInitialized := true,
             log := s.log + [ContextCreated(d.handle)] + (if d.state == Suspended then [CreatedSuspended] else []))
        case Unsupported =>
          s.(isInitialized := false, log := s.log + [UnsupportedPlatform])
  }

  // ---------------------------------------------------------------------
  // _ensureContextReady
  // ---------------------------------------------------------------------

  /** The boolean `_ensureContextReady` resolves to, and the state it leaves. */
  datatype Readiness = Readiness(ready: bool, after: State)

  /** `_ensureContextReady`: initialise lazily when there is no context, then
      resume a suspended context and wait for the outcome. */
  function EnsureContextReady(s: State, env: Env): (r: Readiness)
    ensures SameRegistry(s, r.after)
    ensures s.log <= r.after.log
    // the answer is true exactly when afterwards a context exists and is not suspended
    ensures r.ready <==> NotSuspended(r.after)
    // false only when there is still no context or the resume was rejected
    ensures !r.ready ==> r.after.audioCtx.None? || !env.resumeOk
    ensures s.audioCtx.Some? ==>
              && r.after.audioCtx.Some?
              && r.after.audioCtx.value.handle == s.audioCtx.value.handle
              && r.after.isInitialized == s.isInitialized
    // a live context needs no host interaction at all
    ensures NotSuspended(s) ==> r == Readiness(true, s)
    // the awaited resume of an existing suspended context logs its outcome
    ensures s.audioCtx.Some? && s.audioCtx.value.state == Suspended ==>
              r.after.log == s.log + [if env.resumeOk then Resumed else ResumeFailed]
    // with no context, the warning comes first and initialisation follows
    ensures s.audioCtx.None? ==>
              s.log + [NotInitialized] <= r.after.log
              && InitAudio(s.(log := s.log + [NotInitialized]), env).log <= r.after.log
    // a rejected resume of an existing suspended context answers false and leaves it suspended
    ensures s.audioCtx.Some? && s.audioCtx.value.state == Suspended && !env.resumeOk ==>
              !r.ready && r.after.audioCtx == s.audioCtx
    // lazy initialisation: with no context and the flag clear, a constructing host yields one,
    // which is ready when it starts unsuspended or its resume is fulfilled
    ensures s.audioCtx.None? && !s.isInitialized && env.creation.Constructed? ==>
              && r.after.audioCtx.Some?
              && r.after.audioCtx.value.handle == env.creation.device.handle
              && r.after.isInitialized
              && (r.ready <==> env.creation.device.state != Suspended || env.resumeOk)
    ensures s.audioCtx.None? && (s.isInitialized || env.creation.Unsupported?) ==>
              !r.ready && SameDevice(s, r.after)
    ensures Agree(s) ==> Agree(r.after)
  {
    var s1 := if s.audioCtx.Some? then s else InitAudio(s.(log := s.log + [NotInitialized]), env);
    match s1.audioCtx
    case None => Readiness(false, s1)
    case Some(d) =>
      if d.state != Suspended then Readiness(true, s1)
      else
        var resumed := Resume(d, env.resumeOk);
        Readiness(resumed.state != Suspended,
                  s1.(audioCtx := Some(resumed), log := s1.log + [if env.resumeOk then Resumed else ResumeFailed]))
  }

  // ---------------------------------------------------------------------
  // registerSound
  // ---------------------------------------------------------------------

  /** `registerSound`: attempt initialisation when neither a context nor the
      flag exists, then store (or silently overwrite) the record for `name`,
      with falsy metadata fields replaced by their defaults. */
  function RegisterSound(s: State, name: Name, meta: Metadata, play: Generator, env: Env): (r: State)
    ensures name in r.soundEffects
    ensures r.soundEffects[name].name == name
    ensures !Falsy(meta.description) ==> r.soundEffects[name].description == meta.description.value
    ensures Falsy(meta.description) ==> r.soundEffects[name].description == NoDescription
    ensures !Falsy(meta.emoji) ==> r.soundEffects[name].emoji == meta.emoji.value
    ensures Falsy(meta.emoji) ==> r.soundEffects[name].emoji == DefaultEmoji
    ensures r.soundEffects[name].play == play
    // nothing else in the registry changes
    ensures r.soundEffects.Keys == s.soundEffects.Keys + {name}
    ensures forall k :: k in s.soundEffects && k != name ==> r.soundEffects[k] == s.soundEffects[k]
    ensures name in s.soundEffects ==> r.order == s.order
    ensures name !in s.soundEffects ==> r.order == s.order + [name]
    // the device is touched only when neither a context nor the flag exists
    ensures s.audioCtx.Some? || s.isInitialized ==> SameDevice(s, r)
    ensures s.audioCtx.None? && !s.isInitialized ==> SameDevice(InitAudio(s, env), r)
    ensures s.log < r.log && r.log[|r.log| - 1] == SoundRegistered(meta.emoji, name)
    ensures Agree(s) ==> Agree(r)
    ensures RegistryWf(s) ==> RegistryWf(r)
  {
    var s1 := if s.audioCtx.None? && !s.isInitialized then InitAudio(s, env) else s;
    var entry := Entry(name, OrDefault(meta.description, NoDescription), OrDefault(meta.emoji, DefaultEmoji), play);
    s1.(soundEffects := s1.soundEffects[name := entry],
        order := if name in s1.soundEffects then s1.order else s1.order + [name],
        log := s1.log + [SoundRegistered(meta.emoji, name)])
  }

  // ---------------------------------------------------------------------
  // getAllSoundEffects
  // ---------------------------------------------------------------------

  function Describe(e: Entry): Info {
    Info(e.name, e.description, e.emoji)
  }

  /** The generator-free views of the records stored under `keys`, in that order. */
  function Listing(m: map<Name, Entry>, keys: seq<Name>): (r: seq<Info>)
    requires forall k :: k in keys ==> k in m
    ensures |r| == |keys|
    ensures forall i :: 0 <= i < |keys| ==> r[i] == Describe(m[keys[i]])
  {
    if keys == [] then [] else Listing(m, keys[..|keys| - 1]) + [Describe(m[keys[|keys| - 1]])]
  }

  ghost predicate Lists(r: seq<Info>, k: Name) {
    exists i :: 0 <= i < |r| && r[i].name == k
  }

  lemma {:induction false} DistinctCard(xs: seq<Name>)
    requires Distinct(xs)
    ensures |set x | x in xs| == |xs|
  {
    if xs != [] {
      var init := xs[..|xs| - 1];
      var last := xs[|xs| - 1];
      DistinctCard(init);
      assert (set x | x in xs) == (set x | x in init) + {last};
      assert last !in (set x | x in init);
    }
  }

  /** The registry holds as many records as `order` has names. */
  lemma RegistrySize(s: State)
    requires RegistryWf(s)
    ensures |s.soundEffects| == |s.order|
  {
    DistinctCard(s.order);
    assert s.soundEffects.Keys == set x | x in s.order;
  }

  /** Listing a well-formed registry in enumeration order yields exactly one
      triple per registered name, each copied from the record under that name. */
  lemma ListingFacts(s: State)
    requires RegistryWf(s)
    ensures |Listing(s.soundEffects, s.order)| == |s.soundEffects|
    ensures var r := Listing(s.soundEffects, s.order);
            forall i, j :: 0 <= i < j < |r| ==> r[i].name != r[j].name
    ensures forall k :: k in s.soundEffects <==> Lists(Listing(s.soundEffects, s.order), k)
    ensures var r := Listing(s.soundEffects, s.order);
            forall i :: 0 <= i < |r| ==> r[i] == Describe(s.soundEffects[r[i].name])
  {
    var r := Listing(s.soundEffects, s.order);
    RegistrySize(s);
    forall i | 0 <= i < |r| ensures r[i].name == s.order[i] {
      assert r[i] == Describe(s.soundEffects[s.order[i]]);
    }
    forall k | Lists(r, k) ensures k in s.soundEffects {
      var i :| 0 <= i < |r| && r[i].name == k;
      assert s.order[i] == k;
    }
    forall k | k in s.soundEffects ensures Lists(r, k) {
      var i :| 0 <= i < |s.order| && s.order[i] == k;
      assert r[i].name == k;
    }
  }

  /** `getAllSoundEffects`: one generator-free triple per registered name, in
      enumeration order, with the fields copied from the stored record. */
  method GetAllSoundEffects(s: State) returns (r: seq<Info>)
    requires RegistryWf(s)
    ensures r == Listing(s.soundEffects, s.order)
    ensures |r| == |s.soundEffects|
    ensures forall i, j :: 0 <= i < j < |r| ==> r[i].name != r[j].name
    ensures forall k :: k in s.soundEffects <==> Lists(r, k)
    ensures forall i :: 0 <= i < |r| ==> r[i] == Describe(s.soundEffects[r[i].name])
  {
    r := [];
    var i := 0;
    while i < |s.order|
      invariant 0 <= i <= |s.order|
      invariant r == Listing(s.soundEffects, s.order[..i])
    {
      var e := s.soundEffects[s.order[i]];
      r := r + [Info(e.name, e.description, e.emoji)];
      i := i + 1;
      assert s.order[..i][..i - 1] == s.order[..i - 1];
    }
    assert s.order[..i] == s.order;
    ListingFacts(s);
  }

  // ---------------------------------------------------------------------
  // playSoundByName
  // ---------------------------------------------------------------------

  /** What `playSoundByName` did: the state it left and the generators it
      invoked (at most one). */
  datatype Played = Played(after: State, invoked: seq<Generator>)

  /** The outcome of looking a name up in the registry object: an own record,
      a truthy value inherited from `Object.prototype`, or nothing. */
  datatype Lookup = Registered(entry: Entry) | Inherited | Absent

  /** Names that every plain JavaScript object inherits from `Object.prototype`;
      reading one of them from an object that does not define it yields a
      truthy value. */
  const InheritedMembers: set<Name> := {
    "constructor", "hasOwnProperty", "isPrototypeOf", "propertyIsEnumerable",
    "toLocaleString", "toString", "valueOf", "__proto__",
    "__defineGetter__", "__defineSetter__", "__lookupGetter__", "__lookupSetter__"
  }

  /** The lookup the registry is meant to perform: own records only. */
  function LookupOwn(s: State, name: Name): Lookup {
    if name in s.soundEffects then Registered(s.soundEffects[name]) else Absent
  }

  /** The lookup `this.soundEffects[name]` actually performs on a plain object:
      own records first, then the members inherited from `Object.prototype`. */
  function LookupAsWritten(s: State, name: Name): Lookup {
    if name in s.soundEffects then Registered(s.soundEffects[name])
    else if name in InheritedMembers then Inherited
    else Absent
  }

  /** The body of `playSoundByName` after the lookup: a falsy lookup logs and
      returns; otherwise wait for readiness, then call `sound.play`, catching
      whatever it throws. An inherited member has no `play` property, so the
      call throws a TypeError that the same handler catches. */
  function PlayFound(s: State, name: Name, found: Lookup, env: Env): Played {
    if found.Absent? then Played(s.(log := s.log + [SoundNotFound(name)]), [])
    else
      var rd := EnsureContextReady(s, env);
      if !rd.ready then Played(rd.after.(log := rd.after.log + [NotReady(name)]), [])
      else if found.Inherited? then Played(rd.after.(log := rd.after.log + [PlayFailed(name)]), [])
      else if env.generatorThrows then Played(rd.after.(log := rd.after.log + [PlayFailed(name)]), [found.entry.play])
      else Played(rd.after, [found.entry.play])
  }

  /** `playSoundByName` with an own-property lookup. */
  function PlaySoundByName(s: State, name: Name, env: Env): (r: Played)
    ensures SameRegistry(s, r.after)
    ensures s.log <= r.after.log
    // an unregistered name returns before any readiness or initialisation attempt
    ensures name !in s.soundEffects ==>
              r.invoked == [] && SameDevice(s, r.after) && r.after.log == s.log + [SoundNotFound(name)]
    // a registered name: the stored generator runs once exactly when readiness succeeds
    ensures name in s.soundEffects ==>
              var rd := EnsureContextReady(s, env);
              && (rd.ready ==> r.invoked == [s.soundEffects[name].play])
              && (!rd.ready ==> r.invoked == [])
              && SameDevice(rd.after, r.after)
    // a failed readiness logs a warning; a throwing generator is caught and logged
    ensures name in s.soundEffects ==>
              var rd := EnsureContextReady(s, env);
              r.after.log == rd.after.log + (if !rd.ready then [NotReady(name)]
                                             else if env.generatorThrows then [PlayFailed(name)]
                                             else [])
    ensures |r.invoked| == 1 ==> name in s.soundEffects && NotSuspended(r.after)
    ensures Agree(s) ==> Agree(r.after)
  {
    PlayFound(s, name, LookupOwn(s, name), env)
  }

  /** `playSoundByName` as written, with the inherited-member lookup. It agrees
      with `PlaySoundByName` except on unregistered inherited names, where it
      goes on to wait for readiness instead of reporting the name as missing. */
  function PlaySoundByNameAsWritten(s: State, name: Name, env: Env): (r: Played)
    ensures name in s.soundEffects || name !in InheritedMembers ==> r == PlaySoundByName(s, name, env)
    ensures s.log <= r.after.log
    ensures name !in s.soundEffects && name in InheritedMembers ==>
              && r.invoked == []
              && SameDevice(r.after, EnsureContextReady(s, env).after)
              && SoundNotFound(name) !in r.after.log[|s.log|..]
    // the registry is never touched
    ensures SameRegistry(s, r.after)
    // on an inherited name, readiness runs; then either the readiness warning or,
    // once ready, the caught TypeError of calling the missing `play` is logged
    ensures name !in s.soundEffects && name in InheritedMembers ==>
              var rd := EnsureContextReady(s, env);
              && (rd.ready ==> r.after.log == rd.after.log + [PlayFailed(name)])
              && (!rd.ready ==> r.after.log == rd.after.log + [NotReady(name)])
  {
    PlayFound(s, name, LookupAsWritten(s, name), env)
  }

  /** The inherited-member lookup lets an unregistered name such as
      "toString" reach the device: from a state with no context, the as-written
      call constructs one, while the own-property lookup leaves the device alone. */
  lemma InheritedNameReachesDevice(s: State, name: Name, env: Env)
    requires name in InheritedMembers && name !in s.soundEffects
    requires s.audioCtx.None? && !s.isInitialized && env.creation.Constructed?
    ensures PlaySoundByNameAsWritten(s, name, env).after.audioCtx.Some?
    ensures PlaySoundByName(s, name, env).after.audioCtx.None?
  {
  }
}

=== FILE: host.dfy ===
/**
 This module models the host's side of the audio subsystem: the opaque audio
 context (only its identity and its `state` attribute are observable here) and
 the outcomes the host chooses for each call into it.
 */
module Host {

  /** The three values the `state` attribute of an audio context can take. */
  datatype DeviceState = Suspended | Running | Closed

  /** An audio context: a handle that identifies the instance, and its state. */
  datatype Device = Device(handle: nat, state: DeviceState)

  /** What the host does when the component constructs an audio context:
      either it yields a fresh context, or the constructor throws because the
      platform has no audio support. */
  datatype Creation = Constructed(device: Device) | Unsupported

  /** The host's choices visible to one call of the component: the outcome of
      constructing a context, whether a resume request is fulfilled, and
      whether the stored sound generator throws when it is invoked. */
  datatype Env = Env(creation: Creation, resumeOk: bool, generatorThrows: bool)

  /** The effect of a resume request on a suspended context: a fulfilled
      request leaves it running; a rejected one leaves it as it was. */
  function Resume(d: Device, ok: bool): (r: Device)
    requires d.state == Suspended
    ensures r.handle == d.handle
    ensures r.state == Running <==> ok
    ensures r.state != Suspended <==> ok
  {
    if ok then d.(state := Running) else d
  }
}

=== FILE: session.dfy ===
/**
 Sequences of calls into the component, as the page issues them: the
 script-load registrations, the first-interaction `initAudio`, and button
 clicks that play sounds. The lemmas here relate several calls.
 */
module Session {
  import opened Wrappers
  import opened Host
  import opened Audio

  /** One call into the component, with the host outcomes it meets. `Play`
      looks the name up among registered sounds only; `PlayAsWritten` uses the
      plain-object lookup of lib/RetroWaveFX.js:85, so the run lemmas below cover both. */
  datatype Op =
    | Init(env: Env)
    | EnsureReady(env: Env)
    | Register(name: Name, meta: Metadata, play: Generator, env: Env)
    | Play(name: Name, env: Env)
    | PlayAsWritten(name: Name, env: Env)

  /** The state after a run, and every generator invoked on the way, in order. */
  datatype Trace = Trace(after: State, invoked: seq<Generator>)

  function Step(s: State, op: Op): Trace {
    match op
    case Init(env) => Trace(InitAudio(s, env), [])
    case EnsureReady(env) => Trace(EnsureContextReady(s, env).after, [])
    case Register(name, meta, play, env) => Trace(RegisterSound(s, name, meta, play, env), [])
    case Play(name, env) =>
      var p := PlaySoundByName(s, name, env);
      Trace(p.after, p.invoked)
    case PlayAsWritten(name, env) =>
      var p := PlaySoundByNameAsWritten(s, name, env);
      Trace(p.after, p.invoked)
  }

  function Run(s: State, ops: seq<Op>): Trace
    decreases |ops|
  {
    if ops == [] then Trace(s, [])
    else
      var t := Step(s, ops[0]);
      var u := Run(t.after, ops[1..]);
      Trace(u.after, t.invoked + u.invoked)
  }

  /** The number of "AudioContext created." diagnostics in a log: one per
      successful construction. */
  function Creations(log: seq<Event>): nat {
    if log == [] then 0
    else Creations(log[..|log| - 1]) + (if log[|log| - 1].ContextCreated? then 1 else 0)
  }

  lemma CreationsSnoc(a: seq<Event>, e: Event)
    ensures Creations(a + [e]) == Creations(a) + (if e.ContextCreated? then 1 else 0)
  {
  }

  /** `initAudio` logs a construction exactly when it makes a context appear. */
  lemma InitCreations(s: State, env: Env)
    ensures Creations(InitAudio(s, env).log) ==
            Creations(s.log) + (if s.audioCtx.None? && InitAudio(s, env).audioCtx.Some? then 1 else 0)
  {
    var r := InitAudio(s, env);
    if s.audioCtx.Some? {
      if s.audioCtx.value.state == Suspended && !env.resumeOk {
        CreationsSnoc(s.log, ResumeRequestRejected);
      }
    } else if !s.isInitialized {
      match env.creation
      case Constructed(d) =>
        CreationsSnoc(s.log, ContextCreated(d.handle));
        if d.state == Suspended {
          CreationsSnoc(s.log + [ContextCreated(d.handle)], CreatedSuspended);
        } else {
          assert r.log == s.log + [ContextCreated(d.handle)];
        }
      case Unsupported =>
        CreationsSnoc(s.log, UnsupportedPlatform);
    }
  }

  lemma EnsureCreations(s: State, env: Env)
    ensures var r := EnsureContextReady(s, env).after;
            Creations(r.log) == Creations(s.log) + (if s.audioCtx.None? && r.audioCtx.Some? then 1 else 0)
  {
    var s1 := if s.audioCtx.Some? then s else InitAudio(s.(log := s.log + [NotInitialized]), env);
    if s.audioCtx.None? {
      CreationsSnoc(s.log, NotInitialized);
      InitCreations(s.(log := s.log + [NotInitialized]), env);
    }
    if s1.audioCtx.Some? && s1.audioCtx.value.state == Suspended {
      CreationsSnoc(s1.log, if env.resumeOk then Resumed else ResumeFailed);
    }
  }

  lemma StepCreations(s: State, op: Op)
    ensures var r := Step(s, op).after;
            Creations(r.log) == Creations(s.log) + (if s.audioCtx.None? && r.audioCtx.Some? then 1 else 0)
  {
    match op
    case Init(env) => InitCreations(s, env);
    case EnsureReady(env) => EnsureCreations(s, env);
    case Register(name, meta, play, env) =>
      var s1 := if s.audioCtx.None? && !s.isInitialized then InitAudio(s, env) else s;
      if s.audioCtx.None? && !s.isInitialized {
        InitCreations(s, env);
      }
      CreationsSnoc(s1.log, SoundRegistered(meta.emoji, name));
    case Play(name, env) => PlayFoundCreations(s, name, LookupOwn(s, name), env);
    case PlayAsWritten(name, env) => PlayFoundCreations(s, name, LookupAsWritten(s, name), env);
  }

  lemma PlayFoundCreations(s: State, name: Name, found: Lookup, env: Env)
    ensures var r := PlayFound(s, name, found, env).after;
            Creations(r.log) == Creations(s.log) + (if s.audioCtx.None? && r.audioCtx.Some? then 1 else 0)
  {
    if found.Absent? {
      CreationsSnoc(s.log, SoundNotFound(name));
    } else {
      var rd := EnsureContextReady(s, env);
      EnsureCreations(s, env);
      if !rd.ready {
        CreationsSnoc(rd.after.log, NotReady(name));
      } else if found.Inherited? || env.generatorThrows {
        CreationsSnoc(rd.after.log, PlayFailed(name));
      }
    }
  }

  /** Every call keeps the flag and the device in agreement and the registry
      well formed. */
  lemma {:induction false} RunPreservesWf(s: State, ops: seq<Op>)
    requires Wf(s)
    ensures Wf(Run(s, ops).after)
    decreases |ops|
  {
    if ops != [] {
      RunPreservesWf(Step(s, ops[0]).after, ops[1..]);
    }
  }

  /** Once a context exists, no sequence of calls replaces or removes it, and
      no registered name ever disappears. */
  lemma {:induction false} DeviceNeverReplaced(s: State, ops: seq<Op>)
    ensures s.soundEffects.Keys <= Run(s, ops).after.soundEffects.Keys
    ensures s.audioCtx.Some? ==>
              && Run(s, ops).after.audioCtx.Some?
              && Run(s, ops).after.audioCtx.value.handle == s.audioCtx.value.handle
    decreases |ops|
  {
    if ops != [] {
      DeviceNeverReplaced(Step(s, ops[0]).after, ops[1..]);
    }
  }

  /** Over any sequence of calls, the log records at most one construction of
      a context, and records one exactly when the run made a context appear. */
  lemma {:induction false} AtMostOneCreation(s: State, ops: seq<Op>)
    ensures var r := Run(s, ops).after;
            Creations(r.log) == Creations(s.log) + (if s.audioCtx.None? && r.audioCtx.Some? then 1 else 0)
    decreases |ops|
  {
    if ops != [] {
      var t := Step(s, ops[0]).after;
      StepCreations(s, ops[0]);
      AtMostOneCreation(t, ops[1..]);
      DeviceNeverReplaced(t, ops[1..]);
    }
  }

  /** Calling `initAudio` any number of times constructs at most one context,
      touches nothing in the registry and runs no generator. */
  lemma {:induction false} InitRepeatedly(s: State, ops: seq<Op>)
    requires forall i :: 0 <= i < |ops| ==> ops[i].Init?
    ensures SameRegistry(s, Run(s, ops).after)
    ensures Run(s, ops).invoked == []
    ensures Creations(Run(s, ops).after.log) <= Creations(s.log) + 1
    ensures s.audioCtx.Some? ==> Creations(Run(s, ops).after.log) == Creations(s.log)
    decreases |ops|
  {
    AtMostOneCreation(s, ops);
    if ops != [] {
      InitRepeatedly(Step(s, ops[0]).after, ops[1..]);
    }
  }

  /** A generator that throws is contained: the call leaves the registry and
      device exactly as a successful generator would, and a later play of
      another registered sound still runs that sound's generator. */
  lemma GeneratorFailureContained(s: State, a: Name, b: Name, env1: Env, env2: Env)
    requires a in s.soundEffects && b in s.soundEffects
    requires env1.generatorThrows && EnsureContextReady(s, env1).ready
    requires !env2.generatorThrows
    ensures var p1 := PlaySoundByName(s, a, env1);
            var quiet := PlaySoundByName(s, a, env1.(generatorThrows := false));
            && p1.invoked == quiet.invoked == [s.soundEffects[a].play]
            && SameRegistry(p1.after, quiet.after) && SameDevice(p1.after, quiet.after)
    ensures var p1 := PlaySoundByName(s, a, env1);
            var p2 := PlaySoundByName(p1.after, b, env2);
            && p2.invoked == [s.soundEffects[b].play]
            && p2.after.log == p1.after.log
  {
  }

  /** A rejected resume fails only the call that met it: the next play, once
      the host fulfils the resume, runs the generator. */
  lemma ResumeRetriedOnNextPlay(s: State, name: Name, env1: Env, env2: Env)
    requires name in s.soundEffects
    requires s.audioCtx.Some? && s.audioCtx.value.state == Suspended
    requires !env1.resumeOk && env2.resumeOk
    ensures var p1 := PlaySoundByName(s, name, env1);
            && p1.invoked == []
            && PlaySoundByName(p1.after, name, env2).invoked == [s.soundEffects[name].play]
  {
  }

  /** Registering under an existing name overwrites the record and leaves the
      number of listed sounds unchanged; a new name adds exactly one. */
  lemma RegisterCount(s: State, name: Name, meta: Metadata, play: Generator, env: Env)
    requires RegistryWf(s)
    ensures var r := RegisterSound(s, name, meta, play, env);
            |Listing(r.soundEffects, r.order)| ==
            |Listing(s.soundEffects, s.order)| + (if name in s.soundEffects then 0 else 1)
    ensures var r := RegisterSound(s, name, meta, play, env);
            |r.soundEffects| == |s.soundEffects| + (if name in s.soundEffects then 0 else 1)
  {
  }

  /** The metadata `_registerDefaultSounds` passes for "correct", with the
      emoji as the three characters written at lib/RetroWaveFX.js:110 (see `DefaultEmoji`). */
  const CorrectMeta: Metadata :=
    Metadata(Some("Short, rising sound for correct actions or confirmations."), Some("\U{00E2}\U{0153}\U{2026}"))

  /** The page's intended sequence: register "correct" at load time (the
      context is created suspended), then a click resumes it and plays the
      sound. The listing shows the record, the generator runs once, and no
      error is logged. */
  lemma CorrectScenario(g: Generator, h: nat)
    ensures var s1 := RegisterSound(Initial, "correct", CorrectMeta, g, Env(Constructed(Device(h, Suspended)), false, false));
            var click := Env(Unsupported, true, false);
            var s2 := InitAudio(s1, click);
            var p := PlaySoundByName(s2, "correct", click);
            && Listing(s1.soundEffects, s1.order) ==
               [Info("correct", "Short, rising sound for correct actions or confirmations.", "\U{00E2}\U{0153}\U{2026}")]
            && p.invoked == [g]
            && forall i :: 0 <= i < |p.after.log| ==> !IsError(p.after.log[i])
  {
  }

  /** Before any interaction, on a host that refuses to construct a context,
      playing "correct" logs a readiness warning and runs no generator. */
  lemma PlayBeforeInteraction(g: Generator)
    ensures var env := Env(Unsupported, false, false);
            var s1 := RegisterSound(Initial, "correct", CorrectMeta, g, env);
            var p := PlaySoundByName(s1, "correct", env);
            && p.invoked == []
            && p.after.audioCtx.None?
            && p.after.log[|p.after.log| - 1] == NotReady("correct")
  {
  }
}

=== FILE: wrappers.dfy ===
/** The optional-value datatype used for JavaScript's `null`/`undefined`. */
module Wrappers {

  /** `None` plays the part of `null` or `undefined`; `Some(v)` of a present value. */
  datatype Option<+T> = None | Some(value: T)
}
